=== FILE: README.md ===
# RADIUS server dispatch core, modelled in Dafny

This project models the admission and dispatch core of the pyrad-derived RADIUS server (`radius_server/pyrad/server.py`):

- **Validators** decide whether a packet is admitted on its port: `_HandleAuthPacket`, `_HandleAcctPacket` and the proxy's `_HandleProxyPacket`. Packet codes are those of section 3 of RFC 2865 and section 3 of RFC 2866.
- **Socket bookkeeping**: `Server.__init__` and `BindToAddress` bind the sockets, and `_PrepareSockets` registers them.
- **Dispatch of one ready socket** covers `_GrabPacket`, `_ProcessInput` and `CreateReplyPacket`.
- **The main loop** `Run` is modelled as a fold over a finite trace of poll results.

Files, one module each:

| file | module | models |
|---|---|---|
| `radius.dfy` | `Radius` | packet codes, addresses, sockets, remote hosts, packets, rejection reasons and per-packet exceptions |
| `validate.dfy` | `Validate` | the three validators, and a reference "ordered rules, first failure wins" definition they are proved equal to |
| `sockets.dfy` | `Sockets` | binding, descriptor map, poller registration, auth/acct classification |
| `dispatch.dfy` | `Dispatch` | reading, decoding and stamping one packet, picking the decoder by socket, reply routing, and the validating handler the `_ProcessInput` documentation describes |
| `runloop.dfy` | `RunLoop` | `Run`: shutdown checks, `POLLIN`-only processing, per-packet exception isolation, EINTR retry |
| `proxy.dfy` | `Proxy` | the proxy's dispatch, as written and as evidently intended |

Collaborators the source calls but does not define are function-typed parameters:

- the decoders (`CreateAuthPacket`, `CreateAcctPacket`);
- the Request Authenticator check `VerifyAcctRequest`;
- the packet layer's `CreateReply`;
- the request handler `_handleRequest`.

The intended proxy dispatch takes two more function parameters that the code does not have: a reply decoder `decodeReply` and a reply hook `handleReply`, standing for what a subclass would override. With `Proxy.ValidateOnly` as the hook, the reply path does what the code does: validate and stop.

Because they are parameters, every property is proved for all of them. The shutdown flag and the results of `poll()` and `recvfrom` come in as the input trace.

Behaviours of the code a reader may not expect, all modelled as written:

- The shared secret is copied onto the packet before the code check, so a packet refused for its code still carries the secret.
- The authenticator check applies to every packet that passes the accounting code check, AccountingResponse included, not only to AccountingRequest.
- Only an event mask exactly equal to `POLLIN` is processed. `POLLIN|POLLPRI` and every other mask are only logged.
- A shutdown seen inside the event loop returns from `Run` at once, leaving the rest of that poll's events unread.
- `Run` never closes its sockets.
- A descriptor reported by `poll()` but missing from the descriptor map raises outside the per-packet `try` and ends `Run`, at the first such event reached before a shutdown flag. The model proves this, and proves it cannot happen when `poll()` reports only the server's own sockets.

## Model

| member | source | states |
|---|---|---|
| `Validate.HandleAuthPacket` | radius_server/pyrad/server.py:122-128 | An unknown sender is refused as `UnknownHost` with the packet untouched. For a known sender only the secret changes, and it becomes the host's secret even when the code is wrong. The packet is admitted iff the sender is known and the code is AccessRequest, and refused as non-authentication iff the sender is known and the code is anything else. |
| `Validate.HandleAcctPacket` | radius_server/pyrad/server.py:143-153 | Unknown sender: refused first, packet untouched. Known sender: the secret is set, then codes other than AccountingRequest and AccountingResponse are refused. Both of those codes must then pass the authenticator check on the packet with its secret, else `InvalidAuthenticator`. Each verdict comes with both directions. |
| `Validate.HandleProxyPacket` | radius_server/pyrad/server.py:282-288 | Unknown sender is refused first. For a known sender the secret is set, and the packet is admitted iff its code is AccessAccept, AccessReject or AccountingResponse, else refused as a non-response. |
| `Validate.Stamp` | radius_server/pyrad/server.py:125 | Only the secret field changes, and it changes only for a known sender, to that host's secret. |
| `Validate.FirstFailure` | radius_server/pyrad/server.py:122-153 | Reference semantics of an ordered rule list. The verdict passes iff every rule holds. A failure carries the reason of a rule that fails while every earlier rule holds. |
| `Validate.ValidatorFollowsRules` | radius_server/pyrad/server.py:110-153 | Each validator equals its role's rule list (host, then code, then authenticator on the accounting port), evaluated first-failure-wins on the packet after the secret is copied onto it. |
| `Validate.UnknownHostRejectedFirst` | radius_server/pyrad/server.py:122-123 | On every port, an unknown sender is refused as such whatever its code and authenticator. |
| `Validate.SecretSetPastHostCheck` | radius_server/pyrad/server.py:125-128 | Any packet not refused for an unknown sender comes from a trusted host and carries that host's secret, admitted or not. |
| `Validate.AuthCodesDisjoint` | radius_server/pyrad/server.py:127-150 | No packet is admitted both on the authentication port and on the accounting port. No packet is admitted both on the authentication port and on the proxy socket. |
| `Validate.AccessAcceptOnAcctPortRefused` | radius_server/pyrad/server.py:148-150 | An AccessAccept from a trusted host on the accounting port is refused for its code. |
| `Validate.AcctResponseIsVerified` | radius_server/pyrad/server.py:148-153 | An AccountingResponse from a trusted host on the accounting port is admitted iff the authenticator check passes. |
| `Sockets.BindToAddress` | radius_server/pyrad/server.py:92-107 | Exactly one socket bound to `(addr, authport)` is appended to the auth list and one bound to `(addr, acctport)` to the acct list. Earlier sockets, ports and hosts are unchanged, and the two new sockets get fresh, distinct descriptors. |
| `Sockets.NewServer` | radius_server/pyrad/server.py:68-89 | The auth and acct lists both have one socket per address, in address order. The i-th auth socket is bound to `(addresses[i], authport)` and the i-th acct socket to `(addresses[i], acctport)`. All descriptors are distinct. |
| `Sockets.FdMapEntries` | radius_server/pyrad/server.py:178-180 | Registering a list of sockets one after the other puts exactly their descriptors in the map, each mapped to one of those sockets that carries it. |
| `Sockets.FdMapOfDistinct` | radius_server/pyrad/server.py:178-180 | When the descriptors are distinct, each socket sits under its own descriptor and the map has exactly one entry per socket. |
| `Sockets.PrepareSockets` | radius_server/pyrad/server.py:175-183 | The descriptor map's keys are exactly the descriptors of the auth and acct sockets, each mapped to a socket with that descriptor. Every one is registered for `POLLIN\|POLLPRI\|POLLERR`. With distinct descriptors there is one entry per socket. The auth and acct descriptor lists follow the socket lists. |
| `Sockets.Classify` | radius_server/pyrad/server.py:208 | A descriptor counts as authentication iff it is in the auth descriptor list. Every other descriptor counts as accounting. |
| `Sockets.ServerSocketsClassified` | radius_server/pyrad/server.py:182-211 | On a server with distinct descriptors, every auth socket is classified as authentication and every acct socket as accounting. |
| `Dispatch.Truncate` | radius_server/pyrad/server.py:167 | The decoder sees a prefix of the datagram: the whole datagram when it has at most 8192 bytes, and exactly its first 8192 bytes when it is longer. |
| `Dispatch.GrabPacket` | radius_server/pyrad/server.py:157-172 | A read error is raised as a generic error. The decoder's own `packet.PacketError` is raised as a broken packet and any other decoder exception as a generic error, each with its message. Otherwise the result is the decoded packet with only `source` and `fd` replaced, by the `recvfrom` sender and the receiving socket. |
| `Dispatch.DecodeFault` | radius_server/pyrad/server.py:237-242 | A decoder's `packet.PacketError` is classified as a broken packet and only it; every other decoder exception is a generic error. The message is kept. |
| `Dispatch.ProcessWith` | radius_server/pyrad/server.py:209-213 | The handler is reached iff the packet could be grabbed, and then receives exactly the grabbed packet. Otherwise the grab's exception is the outcome. |
| `Dispatch.ProcessInput` | radius_server/pyrad/server.py:193-213 | A socket listed among the auth descriptors is processed with the auth decoder, and every other socket with the acct decoder. |
| `Dispatch.ServerSocketsDecodedByRole` | radius_server/pyrad/server.py:208-211 | On a server with distinct descriptors, auth sockets never meet the acct decoder and acct sockets never meet the auth decoder. A delivered packet carries the datagram's sender and its socket. |
| `Dispatch.CreateReplyPacket` | radius_server/pyrad/server.py:186-190 | The reply has the request's `source`. Otherwise it is the packet layer's reply unchanged. |
| `Dispatch.ReplyGoesBackToSender` | radius_server/pyrad/server.py:167-190 | The reply to any grabbed request is addressed to the exact address and port the datagram came from. |
| `Dispatch.ValidatedHandler` | radius_server/pyrad/server.py:197-202 | An unknown sender is dropped as `UnknownHost`. A refused packet becomes a `PacketError` with the validator's reason. An admitted packet reaches the hook with the sender's secret attached. |
| `Dispatch.UnknownSenderNeverReachesHook` | radius_server/pyrad/server.py:122-123 | For a packet from an unknown sender the outcome does not depend on the hook, so the hook is never consulted. |
| `Dispatch.HookSeesSecret` | radius_server/pyrad/server.py:125 | Whenever the validator admits a packet, the hook receives it with `secret` set to the sender's secret. |
| `RunLoop.LogOf` | radius_server/pyrad/server.py:237-242 | The three `except` clauses: a log line records a dropped packet iff the server's `PacketError` was raised, with its reason; a broken packet iff the decoder's `packet.PacketError` was raised; any other exception otherwise, each with its message. |
| `RunLoop.EventEffects` | radius_server/pyrad/server.py:233-244 | A non-`POLLIN` event only logs "unexpected event". A `POLLIN` event hands on at most the one packet processing delivered and logs exactly the exception processing raised, if any. |
| `RunLoop.RunEvents` | radius_server/pyrad/server.py:228-244 | The event loop leaves `Run` only through shutdown or a missing descriptor. It hands on at most one packet per `POLLIN` event and logs at most one line per event. |
| `RunLoop.RunRounds` | radius_server/pyrad/server.py:226-249 | `Run` stops on a missing descriptor only if `poll()` reported one, and never stops on an EINTR poll error. Over the whole trace it hands on at most one packet per `POLLIN` event. |
| `RunLoop.UnknownFdStops` | radius_server/pyrad/server.py:232 | The event loop raises a lookup error only if some reported descriptor is missing from the map. |
| `RunLoop.Run` | radius_server/pyrad/server.py:215-249 | After preparing the sockets, the loop never fails a descriptor lookup while `poll()` reports only the server's own sockets, and never stops on EINTR. When in addition the shutdown flag is never seen and every poll error is EINTR, it runs through the whole trace. It hands on at most one packet per `POLLIN` event. |
| `RunLoop.QuietEventsProcessAll` | radius_server/pyrad/server.py:228-242 | An event loop without shutdown or unknown descriptors processes every event exactly as that event alone would, whatever processing raises. |
| `RunLoop.QuietRunProcessesEverything` | radius_server/pyrad/server.py:226-249 | One bad packet never stops the loop. With no shutdown and only EINTR poll errors, `Run` consumes the whole trace. Its log and its handed-on packets are exactly the effects of every reported event in order, for every handler. |
| `RunLoop.ShutdownBeforeEventStops` | radius_server/pyrad/server.py:229-230 | Within one poll's `for` loop, a shutdown flag seen before an event returns from `Run` there. That event and all later ones are left alone, and the earlier events of that poll took effect exactly. |
| `RunLoop.UnknownFdAtEventStops` | radius_server/pyrad/server.py:229-232 | Within one poll's `for` loop, the first event whose descriptor is missing from the map, with no shutdown flag before it or on it, raises the lookup error for that descriptor out of `Run`. That event and all later ones are left alone, and the earlier events of that poll took effect exactly. |
| `RunLoop.QuietEventsPrefix` | radius_server/pyrad/server.py:228-242 | Events without a shutdown flag or an unknown descriptor never leave the `for` loop: it ends as it would on the remaining events, after exactly the effect of the quiet ones. |
| `RunLoop.QuietRoundStep` | radius_server/pyrad/server.py:226-249 | One turn without shutdown, with only an EINTR poll error or known descriptors, does exactly the effects of the events its poll reported and goes on to the next turn. |
| `RunLoop.QuietPrefixRuns` | radius_server/pyrad/server.py:226-249 | Quiet turns never stop `Run`. It ends the way the remaining turns end, after exactly the effects of every event the quiet turns reported, in order. |
| `RunLoop.ShutdownAtRoundStops` | radius_server/pyrad/server.py:226 | A shutdown flag at the loop test of any turn, after quiet turns, stops `Run` there before polling. What was done is exactly the effect of every earlier reported event. |
| `RunLoop.ShutdownInRoundStops` | radius_server/pyrad/server.py:226-230 | A shutdown flag before event j of any turn's poll, after quiet turns and j quiet events, stops `Run` there. That event and everything after it are left alone, and what was done is exactly the effect of every earlier event. |
| `RunLoop.UnknownFdInRoundStops` | radius_server/pyrad/server.py:226-232 | A descriptor missing from the map at event j of any turn's poll, after quiet turns and j quiet events, stops `Run` with the lookup error for that descriptor. That event and everything after it are left alone, and what was done is exactly the effect of every earlier event. |
| `RunLoop.ShutdownAtLoopTestStops` | radius_server/pyrad/server.py:226 | A shutdown flag at the loop test stops `Run` before polling, having done nothing. |
| `RunLoop.PollErrors` | radius_server/pyrad/server.py:245-249 | An EINTR poll error is retried and leaves no trace. Any other errno ends `Run` with that error. |
| `RunLoop.OtherEventsOnlyLogged` | radius_server/pyrad/server.py:243-244 | An event whose mask is not exactly `POLLIN` adds only an "unexpected event" log line. Nothing is handed on and the loop continues. |
| `RunLoop.FailedPacketContinues` | radius_server/pyrad/server.py:234-242 | A packet whose processing raises adds one log line of its exception's kind, and the loop continues as if with the next event. |
| `Proxy.HandleReply` | radius_server/pyrad/server.py:282-288 | A reply refused by `_HandleProxyPacket` is dropped with its reason. Only an admitted reply, with its secret attached, reaches the reply hook `handleReply`, a parameter the model adds for a subclass override. |
| `Proxy.ReplyPathValidatesOnly` | radius_server/pyrad/server.py:282-288 | With the hook `ValidateOnly`, the reply path is exactly `_HandleProxyPacket`: it returns normally iff the reply is admitted, and otherwise raises the validator's refusal. |
| `Proxy.ProcessInputAsWritten` | radius_server/pyrad/server.py:292-311 | The call the main loop makes raises a generic error and hands nothing on. |
| `Proxy.AsWrittenRunDeliversNothing` | radius_server/pyrad/server.py:236 | As written, the proxy's main loop hands no packet to any handler, on any trace. |
| `Proxy.ProxyReplyLostAsWritten` | radius_server/pyrad/server.py:292-311 | A concrete trace: an AccessAccept from a trusted upstream host arrives on the proxy socket. The code as written hands nothing on. The intended dispatch hands on exactly that reply, from that sender, and the event's outcome is the reply hook's outcome on it with the host's secret attached. |
| `Proxy.ProcessInput` | radius_server/pyrad/server.py:292-311 | The intended dispatch treats any socket other than the proxy socket exactly like the plain server. On the proxy socket, a reply grabbed with the reply decoder is handed to the reply hook iff the sender is trusted and the code is a response; otherwise it is dropped with `UnknownHost` or `NonResponsePacket`. The reply decoder and the reply hook are parameters the model adds. |

## Findings

| source | as written | input that shows it | evidently intended | confidence | as-written member | corrected member |
|---|---|---|---|---|---|---|
| radius_server/pyrad/server.py:236 | `Run` calls `self._ProcessInput(fdo)` with one argument. `Proxy._ProcessInput(self, fd, pkt)` takes two, and its own fallback `Server._ProcessInput(self, fd, fd)` passes one too many. Every readable event on a proxy raises `TypeError`, which the bare `except` logs. | an AccessAccept from a trusted upstream host arriving on the proxy socket | read the datagram; decode a proxy-socket reply with a reply decoder (`decodeReply`, which the code does not have), admit it with `_HandleProxyPacket` and pass it to a reply hook (`handleReply`, standing for a subclass override; `ValidateOnly` gives the code's validate-and-stop); send every other socket through `Server._ProcessInput(self, fd)` | high; not executed | `Proxy.ProcessInputAsWritten` (with `Proxy.ProxyReplyLostAsWritten`) | `Proxy.ProcessInput` |

## Left out

- Sockets, `select.poll`, `recvfrom` and `sendto` are operating-system I/O. Sockets are modelled as descriptor numbers with a local address. Poll results, read results and the datagram sender are inputs.
- Descriptor allocation by the system is modelled as a counter, so every new socket gets a descriptor no other socket of the server has.
- Bind failures (address in use, permission denied) are not modelled: binding always succeeds.
- Packet decoding, `CreateReply` and `VerifyAcctRequest` (the MD5 Request Authenticator of section 3 of RFC 2866) belong to the `packet` module, which is not part of this model. They are uninterpreted parameters. Whether a genuine AccountingResponse passes `VerifyAcctRequest` is therefore not modelled.
- `main.isShuttingDown()` is external state. It appears as one flag per loop test and per event.
- `logException` and `toLog` are external. Logging is a list of entries: the rejection reason of a dropped packet, the message of a broken packet or of any other exception, or a bare "unexpected event". Log levels, the log text's formatting and tracebacks are not modelled.
- `_handleRequest` is not defined in the server code. It is a handler parameter that may raise.
- `_ProcessInput` hands every grabbed packet to `self._handleRequest(fd, pkt)` (server.py:213) and never calls `_HandleAuthPacket` or `_HandleAcctPacket` itself. In the code shown the validators are reached only if that undefined handler calls them. `Dispatch.ValidatedHandler` follows the `_ProcessInput` docstring (server.py:196-202), not a code path.
- Sending replies (`SendReplyPacket` in `radius_server/pyrad/host.py`) is not modelled. Only the addressing done by `CreateReplyPacket` is.
- `Proxy._PrepareSockets` is not modelled. It refers to `proxyfd`, which is not defined (server.py:266), so preparing a proxy raises before the loop starts. The proxy socket's registration is therefore not modelled either.
- Proxy.ProcessInput: the reply decoder `decodeReply` and the reply hook `handleReply` are additions of the model. `Proxy._ProcessInput(self, fd, pkt)` (server.py:292-311) receives an already decoded packet and only calls `_HandleProxyPacket`, which does nothing more once it admits a reply (server.py:282-288). The hook stands for a subclass override; `handleReply := ValidateOnly` gives the code's validate-and-stop.
- `Proxy._HandleProxyPacket` compares codes against `client.AccessAccept` and friends, and `client` is not defined (server.py:287). The model uses the intended code set: AccessAccept, AccessReject, AccountingResponse.
- `radius_server/pyrad/host.py` is a thin wrapper (ports, dictionary, packet constructors, `sendto`), and `addons/pexpect/setup.py` is packaging metadata. Neither is modelled.
- The `dict` argument of `Server.__init__` (the RADIUS dictionary handle, server.py:68 and 82) is dropped: `Server` has no field for it. The remote host's name and ports are carried in `RemoteHost` but never consulted by the modelled code.
- The request handler and the reply hook are pure functions of the socket and the packet. `_handleRequest` is a method and may keep state between packets (duplicate detection, say). The lemmas that hold "for every handler", such as `RunLoop.QuietRunProcessesEverything`, therefore cover only handlers without memory.
- `Server.__init__` keeps the caller's hosts dictionary by reference (`self.hosts=hosts`, server.py:83), and the default `{}` (server.py:68) is one object shared by every server built without hosts. A later change to that dictionary, even while `Run` runs, changes which senders are admitted. The model's `hosts` is a value fixed when the server is built.
- RunLoop.Run: its own contract covers descriptor lookups, EINTR, running through an undisturbed trace, and the per-event bound. The exact log and the exact packets handed on are stated by the lemmas about `RunRounds` and `RunEvents`, which `Run` evaluates.

=== FILE: dispatch.dfy ===
/**
  Processing of one ready socket: `_GrabPacket` reads and decodes one
  datagram and stamps it with its sender and socket, `_ProcessInput`
  picks the decoder by the socket's role and hands the packet to the
  request handler, and `CreateReplyPacket` builds a reply addressed to
  the request's sender.

  The decoders (`CreateAuthPacket`, `CreateAcctPacket`), the packet
  layer's `CreateReply` and the request handler `_handleRequest` are not
  part of this model; they are parameters.
 */
module Dispatch {
  import opened Radius
  import opened Validate
  import opened Sockets

  /** What `recvfrom` delivered: the datagram and its sender. */
  datatype Received = Received(data: seq<byte>, source: Address)

  /** A read from a socket: a datagram, or the socket error raised instead. */
  type Recv = Result<Received, string>

  /**
    What a decoder can raise: the packet layer's own `packet.PacketError`,
    or any other exception.
   */
  datatype DecodeError = PacketError(message: string) | OtherException(message: string)

  /** A packet decoder (`CreateAuthPacket`, `CreateAcctPacket`). */
  type Decoder = seq<byte> -> Result<Packet, DecodeError>

  /** How the main loop classifies a decoder's exception. */
  function DecodeFault(e: DecodeError): (f: Fault)
    ensures f.Broken? <==> e.PacketError?
    ensures f.Error? <==> e.OtherException?
    ensures f.message == e.message
  {
    match e
    case PacketError(message) => Broken(message)
    case OtherException(message) => Error(message)
  }

  /** The request handler called for every decoded packet; it may raise. */
  type Handler = (Socket, Packet) -> Outcome<Fault>

  /** The packet handed to the request handler, if any, and how processing ended. */
  datatype Processed = Processed(delivered: Option<Packet>, outcome: Outcome<Fault>)

  /** The bytes `recvfrom(MaxPacketSize)` returns of a datagram: at most `MaxPacketSize` of them. */
  function Truncate(data: seq<byte>): (r: seq<byte>)
    ensures |r| <= MaxPacketSize
    ensures r <= data
    ensures |data| <= MaxPacketSize ==> r == data
    ensures |data| > MaxPacketSize ==> r == data[..MaxPacketSize]
  {
    if |data| <= MaxPacketSize then data else data[..MaxPacketSize]
  }

  /**
    `_GrabPacket`: read one datagram from `fd`, decode it with `pktgen`,
    and stamp the packet with the sender and the receiving socket. A read
    error or a decoding error is raised instead.
   */
  function GrabPacket(pktgen: Decoder, fd: Socket, recv: Recv): (r: Result<Packet, Fault>)
    ensures recv.Failure? ==> r == Failure(Error(recv.error))
    ensures recv.Success? ==> (r.Success? <==> pktgen(Truncate(recv.value.data)).Success?)
    ensures recv.Success? && pktgen(Truncate(recv.value.data)).Failure? ==>
      var e := pktgen(Truncate(recv.value.data)).error;
      && (e.PacketError? ==> r == Failure(Broken(e.message)))
      && (e.OtherException? ==> r == Failure(Error(e.message)))
    ensures r.Success? ==> recv.Success? && r.value.source == recv.value.source && r.value.fd == fd
    ensures r.Success? ==>
      var decoded := pktgen(Truncate(recv.value.data)).value;
      r.value.(source := decoded.source, fd := decoded.fd) == decoded
  {
    match recv
    case Failure(e) => Failure(Error(e))
    case Success(Received(data, source)) =>
      match pktgen(Truncate(data))
      case Failure(e) => Failure(DecodeFault(e))
      case Success(pkt) => Success(pkt.(source := source, fd := fd))
  }

  /** Grab a packet with `pktgen` and, if that succeeds, hand it to `handle`. */
  function ProcessWith(pktgen: Decoder, handle: Handler, fd: Socket, recv: Recv): (r: Processed)
    ensures r.delivered.None? <==> GrabPacket(pktgen, fd, recv).Failure?
    ensures r.delivered.None? ==> r.outcome == Fail(GrabPacket(pktgen, fd, recv).error)
    ensures r.delivered.Some? ==>
      r.delivered.value == GrabPacket(pktgen, fd, recv).value && r.outcome == handle(fd, r.delivered.value)
  {
    match GrabPacket(pktgen, fd, recv)
    case Failure(fault) => Processed(None, Fail(fault))
    case Success(pkt) => Processed(Some(pkt), handle(fd, pkt))
  }

  /**
    `_ProcessInput`: a socket whose descriptor is listed among the
    authentication sockets is decoded as an authentication packet, any
    other socket as an accounting packet; the packet then goes to the
    request handler.
   */
  function ProcessInput(realauthfds: seq<Fd>, decodeAuth: Decoder, decodeAcct: Decoder,
                        handle: Handler, fd: Socket, recv: Recv): (r: Processed)
    ensures fd.fileno in realauthfds ==> r == ProcessWith(decodeAuth, handle, fd, recv)
    ensures fd.fileno !in realauthfds ==> r == ProcessWith(decodeAcct, handle, fd, recv)
  {
    var pktgen := if Classify(fd.fileno, realauthfds) == Auth then decodeAuth else decodeAcct;
    ProcessWith(pktgen, handle, fd, recv)
  }

  /**
    On a server with distinct descriptors, a datagram on an authentication
    socket never meets the accounting decoder and one on an accounting
    socket never meets the authentication decoder; either way the handler
    receives the decoded packet stamped with its sender and socket.
   */
  lemma ServerSocketsDecodedByRole(s: Server, i: nat, decodeAuth: Decoder, decodeAcct: Decoder,
                                   handle: Handler, recv: Recv)
    requires Valid(s)
    ensures i < |s.authfds| ==>
      ProcessInput(Filenos(s.authfds), decodeAuth, decodeAcct, handle, s.authfds[i], recv)
        == ProcessWith(decodeAuth, handle, s.authfds[i], recv)
    ensures i < |s.acctfds| ==>
      ProcessInput(Filenos(s.authfds), decodeAuth, decodeAcct, handle, s.acctfds[i], recv)
        == ProcessWith(decodeAcct, handle, s.acctfds[i], recv)
    ensures i < |s.authfds| ==>
      var r := ProcessInput(Filenos(s.authfds), decodeAuth, decodeAcct, handle, s.authfds[i], recv);
      r.delivered.Some? ==> recv.Success? && r.delivered.value.source == recv.value.source
                            && r.delivered.value.fd == s.authfds[i]
    ensures i < |s.acctfds| ==>
      var r := ProcessInput(Filenos(s.authfds), decodeAuth, decodeAcct, handle, s.acctfds[i], recv);
      r.delivered.Some? ==> recv.Success? && r.delivered.value.source == recv.value.source
                            && r.delivered.value.fd == s.acctfds[i]
  {
    ServerSocketsClassified(s, i);
  }

  /** `CreateReplyPacket`: the packet layer's reply, addressed to the request's sender. */
  function CreateReplyPacket(createReply: Packet -> Packet, pkt: Packet): (reply: Packet)
    ensures reply.source == pkt.source
    ensures reply.(source := createReply(pkt).source) == createReply(pkt)
  {
    createReply(pkt).(source := pkt.source)
  }

  /** A reply to a grabbed request goes to the exact address and port the request came from. */
  lemma ReplyGoesBackToSender(createReply: Packet -> Packet, pktgen: Decoder, fd: Socket, recv: Recv)
    requires GrabPacket(pktgen, fd, recv).Success?
    ensures recv.Success?
    ensures CreateReplyPacket(createReply, GrabPacket(pktgen, fd, recv).value).source == recv.value.source
  {
  }

  /**
    The request handler the `_ProcessInput` documentation describes:
    validate the packet by the role of its socket and pass only admitted
    packets, secret attached, to `hook`; a refusal is raised as the
    server's `PacketError`.
   */
  function ValidatedHandler(hosts: Hosts, verify: Verifier, realauthfds: seq<Fd>, hook: Handler,
                            fd: Socket, pkt: Packet): (r: Outcome<Fault>)
    ensures pkt.source.ip !in hosts ==> r == Fail(Dropped(UnknownHost(pkt.source.ip)))
    ensures Validator(Classify(fd.fileno, realauthfds), hosts, verify, pkt).outcome.Pass?
            ==> r == hook(fd, Stamp(hosts, pkt))
    ensures Validator(Classify(fd.fileno, realauthfds), hosts, verify, pkt).outcome.Fail?
            ==> r == Fail(Dropped(Validator(Classify(fd.fileno, realauthfds), hosts, verify, pkt).outcome.error))
  {
    var checked := Validator(Classify(fd.fileno, realauthfds), hosts, verify, pkt);
    ValidatorFollowsRules(Classify(fd.fileno, realauthfds), hosts, verify, pkt);
    match checked.outcome
    case Fail(reason) => Fail(Dropped(reason))
    case Pass => hook(fd, checked.pkt)
  }

  /**
    With the validating handler, a packet from an unknown sender is
    dropped whatever the hook does: two different hooks give the same
    outcome, so the hook is never consulted.
   */
  lemma UnknownSenderNeverReachesHook(hosts: Hosts, verify: Verifier, realauthfds: seq<Fd>,
                                      hook1: Handler, hook2: Handler, fd: Socket, pkt: Packet)
    requires pkt.source.ip !in hosts
    ensures ValidatedHandler(hosts, verify, realauthfds, hook1, fd, pkt)
         == ValidatedHandler(hosts, verify, realauthfds, hook2, fd, pkt)
         == Fail(Dropped(UnknownHost(pkt.source.ip)))
  {
  }

  /** With the validating handler, the hook only ever sees packets that carry their sender's secret. */
  lemma HookSeesSecret(hosts: Hosts, verify: Verifier, realauthfds: seq<Fd>, hook: Handler,
                       fd: Socket, pkt: Packet)
    requires Validator(Classify(fd.fileno, realauthfds), hosts, verify, pkt).outcome.Pass?
    ensures pkt.source.ip in hosts
    ensures ValidatedHandler(hosts, verify, realauthfds, hook, fd, pkt)
         == hook(fd, pkt.(secret := hosts[pkt.source.ip].secret))
  {
  }
}

=== FILE: proxy.dfy ===
/**
  The proxy variant of the server: a third socket receives the replies of
  upstream RADIUS servers, which are admitted by `_HandleProxyPacket`.

  As written, the proxy's main loop calls `_ProcessInput(fdo)` with one
  argument while `Proxy._ProcessInput` takes two, so every readable event
  raises a `TypeError` that the loop logs and swallows: no datagram is
  ever read or handled. `ProcessInputAsWritten` models that; `ProcessInput`
  is the evidently intended dispatch (read the datagram, send proxy
  replies through `_HandleProxyPacket`, everything else down the server's
  path).
 */
module Proxy {
  import opened Radius
  import opened Validate
  import opened Sockets
  import opened Dispatch
  import opened RunLoop

  /** `Proxy._ProcessInput` called with the single argument the main loop passes: it raises before reading anything. */
  function ProcessInputAsWritten(fd: Socket, recv: Recv): (r: Processed)
    ensures r.delivered.None?
    ensures r.outcome.Fail? && r.outcome.error.Error?
  {
    Processed(None, Fail(Error("TypeError: _ProcessInput() takes exactly 3 arguments (2 given)")))
  }

  lemma {:induction false} AsWrittenEventsDeliverNothing(fdmap: map<Fd, Socket>, events: seq<Event>)
    ensures RunEvents(fdmap, ProcessInputAsWritten, events).delivered == []
    decreases |events|
  {
    if |events| > 0 && !events[0].shutdown && events[0].fd in fdmap {
      AsWrittenEventsDeliverNothing(fdmap, events[1..]);
    }
  }

  /** As written, the proxy's main loop never hands a single packet on, whatever arrives. */
  lemma {:induction false} AsWrittenRunDeliversNothing(fdmap: map<Fd, Socket>, rounds: seq<Round>)
    ensures RunRounds(fdmap, ProcessInputAsWritten, rounds).delivered == []
    decreases |rounds|
  {
    if |rounds| > 0 && !rounds[0].shutdown {
      match rounds[0].poll
      case PollFailed(_) =>
        AsWrittenRunDeliversNothing(fdmap, rounds[1..]);
      case Ready(events) =>
        AsWrittenEventsDeliverNothing(fdmap, events);
        AsWrittenRunDeliversNothing(fdmap, rounds[1..]);
    }
  }

  /**
    The reply path of the proxy socket: admit the packet with
    `_HandleProxyPacket` and pass only admitted replies, secret attached,
    to the reply handler.
   */
  function HandleReply(hosts: Hosts, handleReply: Handler, fd: Socket, pkt: Packet): (r: Outcome<Fault>)
    ensures HandleProxyPacket(hosts, pkt).outcome.Fail? ==> r == Fail(Dropped(HandleProxyPacket(hosts, pkt).outcome.error))
    ensures HandleProxyPacket(hosts, pkt).outcome.Pass? ==> r == handleReply(fd, Stamp(hosts, pkt))
  {
    var checked := HandleProxyPacket(hosts, pkt);
    match checked.outcome
    case Fail(reason) => Fail(Dropped(reason))
    case Pass => handleReply(fd, checked.pkt)
  }

  /** The reply hook of the code as written: `_HandleProxyPacket` does nothing more once it admits a reply. */
  function ValidateOnly(fd: Socket, pkt: Packet): (r: Outcome<Fault>)
    ensures r.Pass?
  {
    Pass
  }

  /**
    With `ValidateOnly` as the reply hook, the reply path is exactly
    `_HandleProxyPacket`: it returns normally iff the reply is admitted,
    and otherwise raises the validator's refusal.
   */
  lemma ReplyPathValidatesOnly(hosts: Hosts, fd: Socket, pkt: Packet)
    ensures HandleReply(hosts, ValidateOnly, fd, pkt).Pass? <==> HandleProxyPacket(hosts, pkt).outcome.Pass?
    ensures HandleProxyPacket(hosts, pkt).outcome.Fail?
            ==> HandleReply(hosts, ValidateOnly, fd, pkt) == Fail(Dropped(HandleProxyPacket(hosts, pkt).outcome.error))
  {
  }

  /**
    The intended `Proxy._ProcessInput`: a datagram on the proxy socket is
    read, decoded and taken down the reply path; a datagram on any other
    socket is processed exactly as by the plain server.
   */
  function ProcessInput(proxyfd: Socket, realauthfds: seq<Fd>, decodeAuth: Decoder, decodeAcct: Decoder,
                        decodeReply: Decoder, hosts: Hosts, handleRequest: Handler, handleReply: Handler,
                        fd: Socket, recv: Recv): (r: Processed)
    ensures fd.fileno != proxyfd.fileno
            ==> r == Dispatch.ProcessInput(realauthfds, decodeAuth, decodeAcct, handleRequest, fd, recv)
    ensures fd.fileno == proxyfd.fileno ==> (r.delivered.Some? <==> GrabPacket(decodeReply, fd, recv).Success?)
    ensures fd.fileno == proxyfd.fileno && r.delivered.Some? ==>
      var pkt := r.delivered.value;
      && pkt == GrabPacket(decodeReply, fd, recv).value
      && (pkt.source.ip in hosts && pkt.code in {AccessAccept, AccessReject, AccountingResponse}
          ==> r.outcome == handleReply(fd, pkt.(secret := hosts[pkt.source.ip].secret)))
      && (pkt.source.ip !in hosts ==> r.outcome == Fail(Dropped(UnknownHost(pkt.source.ip))))
      && (pkt.source.ip in hosts && pkt.code !in {AccessAccept, AccessReject, AccountingResponse}
          ==> r.outcome == Fail(Dropped(NonResponsePacket)))
  {
    if fd.fileno == proxyfd.fileno then
      ProcessWith(decodeReply, (sock, pkt) => HandleReply(hosts, handleReply, sock, pkt), fd, recv)
    else
      Dispatch.ProcessInput(realauthfds, decodeAuth, decodeAcct, handleRequest, fd, recv)
  }

  /** A reply datagram decoded by `decodeReply`, as `recvfrom` would deliver it. */
  function SampleReply(): (r: Received)
  {
    Received([AccessAccept], Address("10.0.0.5", 1812))
  }

  /** A decoder that reads the first octet as the code, when there is one. */
  function CodeOnlyDecoder(data: seq<byte>): (r: Result<Packet, DecodeError>)
  {
    if |data| == 0 then Failure(PacketError("empty"))
    else Success(Packet(data[0], [], [], [], Address("", 0), Socket(0, Address("", 0))))
  }

  /**
    The discrepancy on one concrete trace: an AccessAccept from a trusted
    upstream host arrives on the proxy socket. The intended dispatch reads
    it and hands it, with the host's secret attached, to the reply
    handler, whose outcome becomes the outcome of the event; the code as
    written logs a `TypeError` and hands nothing on.
   */
  lemma ProxyReplyLostAsWritten(handleReply: Handler, handleRequest: Handler)
    ensures
      var proxyfd := Socket(7, Address("", 0));
      var hosts := map["10.0.0.5" := RemoteHost("10.0.0.5", [1, 2, 3], "upstream", 1812, 1813)];
      var fdmap := map[7 := proxyfd];
      var rounds := [Round(false, Ready([Event(7, POLLIN, false, Success(SampleReply()))]))];
      var intended := (fd, recv) => ProcessInput(proxyfd, [], CodeOnlyDecoder, CodeOnlyDecoder, CodeOnlyDecoder,
                                                 hosts, handleRequest, handleReply, fd, recv);
      && RunRounds(fdmap, ProcessInputAsWritten, rounds).delivered == []
      && |RunRounds(fdmap, intended, rounds).delivered| == 1
      && RunRounds(fdmap, intended, rounds).delivered[0].code == AccessAccept
      && RunRounds(fdmap, intended, rounds).delivered[0].source == SampleReply().source
      && intended(proxyfd, Success(SampleReply())).outcome
         == handleReply(proxyfd, RunRounds(fdmap, intended, rounds).delivered[0].(secret := [1, 2, 3]))
  {
    var proxyfd := Socket(7, Address("", 0));
    var hosts := map["10.0.0.5" := RemoteHost("10.0.0.5", [1, 2, 3], "upstream", 1812, 1813)];
    var fdmap := map[7 := proxyfd];
    var events := [Event(7, POLLIN, false, Success(SampleReply()))];
    var rounds := [Round(false, Ready(events))];
    var intended := (fd, recv) => ProcessInput(proxyfd, [], CodeOnlyDecoder, CodeOnlyDecoder, CodeOnlyDecoder,
                                               hosts, handleRequest, handleReply, fd, recv);
    AsWrittenRunDeliversNothing(fdmap, rounds);
    assert Truncate(SampleReply().data) == [AccessAccept];
    assert QuietRounds(fdmap, rounds);
    QuietRunProcessesEverything(fdmap, intended, rounds);
    assert AllEvents(rounds) == events by {
      assert AllEvents(rounds[1..]) == [];
    }
  }
}

=== FILE: radius.dfy ===
/**
  Shared vocabulary of the RADIUS server core: packet codes, addresses,
  sockets, the trusted-host table entry, decoded packets and the ways the
  processing of one packet can fail.
 */
module Radius {

  newtype byte = x: int | 0 <= x < 256

  /** A RADIUS packet code, one octet on the wire (section 3 of RFC 2865). */
  type Code = byte

  const AccessRequest: Code := 1
  const AccessAccept: Code := 2
  const AccessReject: Code := 3
  const AccountingRequest: Code := 4   // section 3 of RFC 2866
  const AccountingResponse: Code := 5  // section 3 of RFC 2866

  /** Default ports of a remote host and of the server. */
  const DefaultAuthPort: nat := 1812
  const DefaultAcctPort: nat := 1813

  /** Largest datagram the server reads in one `recvfrom`. */
  const MaxPacketSize: nat := 8192

  type IP = string

  /** A UDP endpoint, the `(host, port)` pair of the socket layer. */
  datatype Address = Address(ip: IP, port: nat)

  /** File descriptor number of a socket (`fileno()`). */
  type Fd = nat

  /** A bound UDP socket: its descriptor and the local endpoint it is bound to. */
  datatype Socket = Socket(fileno: Fd, local: Address)

  /** A remote RADIUS host we are willing to talk to. */
  datatype RemoteHost = RemoteHost(address: IP, secret: seq<byte>, name: string, authport: nat, acctport: nat)

  /**
    A decoded packet. Decoding itself is outside the model; `source` and
    `fd` are stamped by the server after decoding, and `secret` is filled
    in by the validators from the trusted-host table.
   */
  datatype Packet = Packet(
    code: Code,
    authenticator: seq<byte>,
    attributes: seq<byte>,
    secret: seq<byte>,
    source: Address,
    fd: Socket)

  /** Why a validator refused a packet (the `PacketError` messages). */
  datatype Rejection =
    | UnknownHost(ip: IP)
    | NonAuthenticationPacket
    | NonAccountingPacket
    | InvalidAuthenticator(ip: IP)
    | NonResponsePacket

  /**
    An exception escaping the processing of one packet, split the way the
    main loop's handlers split them: the server's own `PacketError`, the
    decoder's `packet.PacketError`, and anything else.
   */
  datatype Fault =
    | Dropped(reason: Rejection)
    | Broken(message: string)
    | Error(message: string)

  datatype Option<+T> = None | Some(value: T)

  datatype Result<+T, +E> = Success(value: T) | Failure(error: E)

  datatype Outcome<+E> = Pass | Fail(error: E)
}

=== FILE: runloop.dfy ===
/**
  The server's main loop (`Run`) as a fold over a finite trace of what the
  environment does: for every turn of the `while` loop, the shutdown flag
  read at the loop test and the result of `poll()`; for every reported
  event, the shutdown flag read before it and what reading its socket
  yields.

  The loop stops when the shutdown flag is seen, when `poll()` fails with
  anything but an interrupted system call (errno 4, which is retried), or
  when a reported descriptor is missing from the descriptor map (the
  lookup raises outside the per-packet `try`). Everything that goes wrong
  while one packet is processed is logged and the loop goes on.
 */
module RunLoop {
  import opened Radius
  import opened Sockets
  import opened Dispatch

  /** errno of an interrupted system call. */
  const EINTR: int := 4

  /** One `(fd, event)` pair from `poll()`, with the shutdown flag read before it and the read its processing would do. */
  datatype Event = Event(fd: Fd, mask: bv16, shutdown: bool, recv: Recv)

  datatype PollResult = Ready(events: seq<Event>) | PollFailed(errno: int)

  /** One turn of the `while` loop: the shutdown flag at the loop test, then what `poll()` returned. */
  datatype Round = Round(shutdown: bool, poll: PollResult)

  /** `_ProcessInput` of the running server, applied to the socket of an event. */
  type Process = (Socket, Recv) -> Processed

  /**
    What the loop logs: the reason of a dropped packet, the message of a
    broken packet or of any other exception, or that an event was unexpected.
   */
  datatype LogEntry =
    | DroppingPacket(reason: Rejection)
    | BrokenPacket(message: string)
    | LoggedException(message: string)
    | UnexpectedEvent

  /** Why `Run` ended: the shutdown flag, a fatal poll error, a lookup error, or the trace ran out while the loop was still running. */
  datatype Stop = ShutDown | PollError(errno: int) | UnknownDescriptor(fd: Fd) | TraceEnded

  /** What a stretch of the loop did: its log, and the packets handed to the request handler. */
  datatype Effects = Effects(log: seq<LogEntry>, delivered: seq<Packet>)

  /** One pass of the `for` loop over the events of one poll; `stop` is set when it left `Run`. */
  datatype Batch = Batch(stop: Option<Stop>, log: seq<LogEntry>, delivered: seq<Packet>)

  datatype RunResult = RunResult(stop: Stop, log: seq<LogEntry>, delivered: seq<Packet>)

  /** The log line each kind of per-packet exception produces. */
  function LogOf(fault: Fault): (r: LogEntry)
    ensures r.DroppingPacket? <==> fault.Dropped?
    ensures r.BrokenPacket? <==> fault.Broken?
    ensures r.LoggedException? <==> fault.Error?
    ensures fault.Dropped? ==> r.reason == fault.reason
    ensures !fault.Dropped? ==> r.message == fault.message
  {
    match fault
    case Dropped(reason) => DroppingPacket(reason)
    case Broken(message) => BrokenPacket(message)
    case Error(message) => LoggedException(message)
  }

  /**
    The effect of one event whose socket is known: a `POLLIN` event is
    processed, any exception logged; any other event mask is only logged.
   */
  function EventEffects(sock: Socket, process: Process, e: Event): (r: Effects)
    ensures e.mask != POLLIN ==> r == Effects([UnexpectedEvent], [])
    ensures |r.log| <= 1 && |r.delivered| <= 1
    ensures e.mask == POLLIN ==>
      var p := process(sock, e.recv);
      && (r.delivered == [] <==> p.delivered.None?)
      && (p.delivered.Some? ==> r.delivered == [p.delivered.value])
      && (r.log == [] <==> p.outcome.Pass?)
      && (p.outcome.Fail? ==> r.log == [LogOf(p.outcome.error)])
  {
    if e.mask == POLLIN then
      var p := process(sock, e.recv);
      Effects(
        match p.outcome case Pass => [] case Fail(fault) => [LogOf(fault)],
        match p.delivered case None => [] case Some(pkt) => [pkt])
    else
      Effects([UnexpectedEvent], [])
  }

  /** The number of events whose mask is exactly `POLLIN`. */
  function CountPollIn(events: seq<Event>): (r: nat)
  {
    if |events| == 0 then 0
    else (if events[0].mask == POLLIN then 1 else 0) + CountPollIn(events[1..])
  }

  /** The `for` loop over the events of one successful poll. */
  function RunEvents(fdmap: map<Fd, Socket>, process: Process, events: seq<Event>): (r: Batch)
    ensures r.stop.Some? ==> r.stop.value == ShutDown || r.stop.value.UnknownDescriptor?
    ensures |r.delivered| <= CountPollIn(events)
    ensures |r.log| <= |events|
    decreases |events|
  {
    if |events| == 0 then Batch(None, [], [])
    else
      var e := events[0];
      if e.shutdown then Batch(Some(ShutDown), [], [])
      else if e.fd !in fdmap then Batch(Some(UnknownDescriptor(e.fd)), [], [])
      else
        var here := EventEffects(fdmap[e.fd], process, e);
        var rest := RunEvents(fdmap, process, events[1..]);
        Batch(rest.stop, here.log + rest.log, here.delivered + rest.delivered)
  }

  /** The `while` loop of `Run`, over the remaining turns. */
  function RunRounds(fdmap: map<Fd, Socket>, process: Process, rounds: seq<Round>): (r: RunResult)
    ensures r.stop.UnknownDescriptor? ==>
      exists i :: 0 <= i < |rounds| && rounds[i].poll.Ready? && HasUnknownFd(fdmap, rounds[i].poll.events)
    ensures r.stop.PollError? ==> r.stop.errno != EINTR
    ensures |r.delivered| <= CountPollIn(AllEvents(rounds))
    decreases |rounds|
  {
    if |rounds| == 0 then RunResult(TraceEnded, [], [])
    else if rounds[0].shutdown then RunResult(ShutDown, [], [])
    else
      CountPollInAppend(if rounds[0].poll.Ready? then rounds[0].poll.events else [], AllEvents(rounds[1..]));
      match rounds[0].poll
      case PollFailed(errno) =>
        if errno == EINTR then RunRounds(fdmap, process, rounds[1..])
        else RunResult(PollError(errno), [], [])
      case Ready(events) =>
        var batch := RunEvents(fdmap, process, events);
        if batch.stop.Some? then
          UnknownFdStops(fdmap, process, events);
          RunResult(batch.stop.value, batch.log, batch.delivered)
        else
          var rest := RunRounds(fdmap, process, rounds[1..]);
          RunResult(rest.stop, batch.log + rest.log, batch.delivered + rest.delivered)
  }

  predicate HasUnknownFd(fdmap: map<Fd, Socket>, events: seq<Event>)
  {
    exists i :: 0 <= i < |events| && events[i].fd !in fdmap
  }

  /** The `for` loop only leaves `Run` through a missing descriptor if one was reported. */
  lemma {:induction false} UnknownFdStops(fdmap: map<Fd, Socket>, process: Process, events: seq<Event>)
    ensures RunEvents(fdmap, process, events).stop.Some?
            && RunEvents(fdmap, process, events).stop.value.UnknownDescriptor?
            ==> HasUnknownFd(fdmap, events)
    decreases |events|
  {
    if |events| > 0 && !events[0].shutdown && events[0].fd in fdmap {
      UnknownFdStops(fdmap, process, events[1..]);
      if HasUnknownFd(fdmap, events[1..]) {
        var i :| 0 <= i < |events[1..]| && events[1..][i].fd !in fdmap;
        assert events[i + 1].fd !in fdmap;
      }
    }
  }

  /**
    `Run`: prepare the sockets, then loop. Requests on authentication
    sockets are decoded with `decodeAuth`, all others with `decodeAcct`,
    and handed to `handle`. As long as `poll()` only reports the server's
    own sockets, the loop never fails on a descriptor lookup.
   */
  method Run(s: Server, decodeAuth: Decoder, decodeAcct: Decoder, handle: Handler, rounds: seq<Round>)
    returns (r: RunResult)
    ensures OnlyServerSockets(s, rounds) ==> !r.stop.UnknownDescriptor?
    ensures r.stop.PollError? ==> r.stop.errno != EINTR
    ensures Undisturbed(rounds) && OnlyServerSockets(s, rounds) ==> r.stop == TraceEnded
    ensures |r.delivered| <= CountPollIn(AllEvents(rounds))
  {
    var p := PrepareSockets(s);
    var process: Process := (fd, recv) => ProcessInput(p.realauthfds, decodeAuth, decodeAcct, handle, fd, recv);
    r := RunRounds(p.fdmap, process, rounds);
    if Undisturbed(rounds) && OnlyServerSockets(s, rounds) {
      forall i | 0 <= i < |rounds| && rounds[i].poll.Ready?
        ensures QuietEvents(p.fdmap, rounds[i].poll.events)
      {
        var events := rounds[i].poll.events;
        forall j | 0 <= j < |events|
          ensures events[j].fd in p.fdmap
        {
          var k :| 0 <= k < |AllSockets(s)| && AllSockets(s)[k].fileno == events[j].fd;
        }
      }
      QuietRunProcessesEverything(p.fdmap, process, rounds);
    }
  }

  /** The shutdown flag is never seen and `poll()` fails only by interruption. */
  predicate Undisturbed(rounds: seq<Round>)
  {
    forall i :: 0 <= i < |rounds| ==>
      && !rounds[i].shutdown
      && (rounds[i].poll.PollFailed? ==> rounds[i].poll.errno == EINTR)
      && (rounds[i].poll.Ready? ==> Uninterrupted(rounds[i].poll.events))
  }

  /** The shutdown flag is not seen before any of `events`. */
  predicate Uninterrupted(events: seq<Event>)
  {
    forall j :: 0 <= j < |events| ==> !events[j].shutdown
  }

  /** Every descriptor of `events` is in the descriptor map. */
  predicate KnownFds(fdmap: map<Fd, Socket>, events: seq<Event>)
  {
    forall j :: 0 <= j < |events| ==> events[j].fd in fdmap
  }

  lemma {:induction false} CountPollInAppend(a: seq<Event>, b: seq<Event>)
    ensures CountPollIn(a + b) == CountPollIn(a) + CountPollIn(b)
    decreases |a|
  {
    if |a| > 0 {
      assert (a + b)[1..] == a[1..] + b;
      CountPollInAppend(a[1..], b);
    } else {
      assert a + b == b;
    }
  }

  /** `poll()` only reports descriptors of the server's own sockets. */
  predicate OnlyServerSockets(s: Server, rounds: seq<Round>)
  {
    forall i, j :: 0 <= i < |rounds| && rounds[i].poll.Ready? && 0 <= j < |rounds[i].poll.events| ==>
      exists k :: 0 <= k < |AllSockets(s)| && AllSockets(s)[k].fileno == rounds[i].poll.events[j].fd
  }

  // ---------------------------------------------------------------------
  // Reference: the effects of a stretch of events, one after the other,
  // with nothing in between.
  // ---------------------------------------------------------------------

  function EffectsOf(fdmap: map<Fd, Socket>, process: Process, events: seq<Event>): (r: Effects)
    decreases |events|
  {
    if |events| == 0 then Effects([], [])
    else
      var here := EventAt(fdmap, process, events[0]);
      var rest := EffectsOf(fdmap, process, events[1..]);
      Effects(here.log + rest.log, here.delivered + rest.delivered)
  }

  /** The effect of one event on its own: that of its socket, or nothing if the descriptor is unknown. */
  function EventAt(fdmap: map<Fd, Socket>, process: Process, e: Event): (r: Effects)
  {
    if e.fd in fdmap then EventEffects(fdmap[e.fd], process, e) else Effects([], [])
  }

  /** All events reported by successful polls, in order. */
  function AllEvents(rounds: seq<Round>): (r: seq<Event>)
    decreases |rounds|
  {
    if |rounds| == 0 then [] else PollEvents(rounds[0]) + AllEvents(rounds[1..])
  }

  /** The events one turn's poll reported: none if it failed. */
  function PollEvents(round: Round): (r: seq<Event>)
  {
    if round.poll.Ready? then round.poll.events else []
  }

  /** No event is interrupted by shutdown and every reported descriptor is known. */
  predicate QuietEvents(fdmap: map<Fd, Socket>, events: seq<Event>)
  {
    Uninterrupted(events) && KnownFds(fdmap, events)
  }

  /** An undisturbed trace in which `poll()` reports only known descriptors. */
  predicate QuietRounds(fdmap: map<Fd, Socket>, rounds: seq<Round>)
  {
    && Undisturbed(rounds)
    && forall i :: 0 <= i < |rounds| && rounds[i].poll.Ready? ==> KnownFds(fdmap, rounds[i].poll.events)
  }

  /** The turns after the first of a quiet trace are quiet. */
  lemma QuietRoundsTail(fdmap: map<Fd, Socket>, rounds: seq<Round>)
    requires |rounds| > 0 && QuietRounds(fdmap, rounds)
    ensures QuietRounds(fdmap, rounds[1..])
  {
  }

  lemma {:induction false} EffectsOfAppend(fdmap: map<Fd, Socket>, process: Process, a: seq<Event>, b: seq<Event>)
    ensures EffectsOf(fdmap, process, a + b).log == EffectsOf(fdmap, process, a).log + EffectsOf(fdmap, process, b).log
    ensures EffectsOf(fdmap, process, a + b).delivered
         == EffectsOf(fdmap, process, a).delivered + EffectsOf(fdmap, process, b).delivered
    decreases |a|
  {
    if |a| > 0 {
      assert (a + b)[0] == a[0];
      assert (a + b)[1..] == a[1..] + b;
      EffectsOfAppend(fdmap, process, a[1..], b);
      var here, rest, other := EventAt(fdmap, process, a[0]), EffectsOf(fdmap, process, a[1..]), EffectsOf(fdmap, process, b);
      ConcatAssoc(here.log, rest.log, other.log);
      ConcatAssoc(here.delivered, rest.delivered, other.delivered);
    } else {
      assert a + b == b;
    }
  }

  /**
    One poll's `for` loop that is not interrupted processes every event
    exactly as that event alone would, whatever the request handler
    raises: no exception of one packet ends the loop or costs another
    packet its turn.
   */
  lemma {:induction false} QuietEventsProcessAll(fdmap: map<Fd, Socket>, process: Process, events: seq<Event>)
    requires QuietEvents(fdmap, events)
    ensures RunEvents(fdmap, process, events)
         == Batch(None, EffectsOf(fdmap, process, events).log, EffectsOf(fdmap, process, events).delivered)
    decreases |events|
  {
    if |events| > 0 {
      assert QuietEvents(fdmap, events[1..]) by {
        forall i | 0 <= i < |events[1..]|
          ensures !events[1..][i].shutdown && events[1..][i].fd in fdmap
        {
          assert events[1..][i] == events[i + 1];
        }
      }
      QuietEventsProcessAll(fdmap, process, events[1..]);
    }
  }

  /**
    "One bad packet never stops the loop": on a trace without shutdown and
    without fatal poll errors, `Run` consumes the whole trace, and what it
    logs and hands to the request handler is exactly the effect of every
    reported event in order, for every request handler, failing or not.
   */
  lemma {:induction false} QuietRunProcessesEverything(fdmap: map<Fd, Socket>, process: Process, rounds: seq<Round>)
    requires QuietRounds(fdmap, rounds)
    ensures RunRounds(fdmap, process, rounds).stop == TraceEnded
    ensures RunRounds(fdmap, process, rounds).log == EffectsOf(fdmap, process, AllEvents(rounds)).log
    ensures RunRounds(fdmap, process, rounds).delivered == EffectsOf(fdmap, process, AllEvents(rounds)).delivered
    decreases |rounds|
  {
    if |rounds| > 0 {
      QuietRoundsTail(fdmap, rounds);
      QuietRunProcessesEverything(fdmap, process, rounds[1..]);
      var head := if rounds[0].poll.Ready? then rounds[0].poll.events else [];
      EffectsOfAppend(fdmap, process, head, AllEvents(rounds[1..]));
      if rounds[0].poll.Ready? {
        QuietEventsProcessAll(fdmap, process, head);
      }
    }
  }

  /**
    A shutdown flag seen before an event stops `Run` there: the event and
    everything after it are left alone, and what was done before is
    exactly the effect of the earlier events.
   */
  lemma ShutdownBeforeEventStops(fdmap: map<Fd, Socket>, process: Process, events: seq<Event>, k: nat)
    requires k < |events| && events[k].shutdown
    requires QuietEvents(fdmap, events[..k])
    ensures RunEvents(fdmap, process, events).stop == Some(ShutDown)
    ensures RunEvents(fdmap, process, events).log == EffectsOf(fdmap, process, events[..k]).log
    ensures RunEvents(fdmap, process, events).delivered == EffectsOf(fdmap, process, events[..k]).delivered
  {
    QuietEventsPrefix(fdmap, process, events, k);
    assert events[k..][0] == events[k];
  }

  /**
    A reported descriptor missing from the descriptor map, reached before
    any shutdown, ends `Run` with the lookup error for that descriptor:
    the event and everything after it are left alone, and what was done
    before is exactly the effect of the earlier events.
   */
  lemma UnknownFdAtEventStops(fdmap: map<Fd, Socket>, process: Process, events: seq<Event>, j: nat)
    requires j < |events| && !events[j].shutdown && events[j].fd !in fdmap
    requires QuietEvents(fdmap, events[..j])
    ensures RunEvents(fdmap, process, events).stop == Some(UnknownDescriptor(events[j].fd))
    ensures RunEvents(fdmap, process, events).log == EffectsOf(fdmap, process, events[..j]).log
    ensures RunEvents(fdmap, process, events).delivered == EffectsOf(fdmap, process, events[..j]).delivered
  {
    QuietEventsPrefix(fdmap, process, events, j);
    assert events[j..][0] == events[j];
  }

  /**
    Quiet events never leave the `for` loop: the loop over `events` ends
    the way it ends on the events after the first `k`, after exactly the
    effects of those `k` events.
   */
  lemma {:induction false} QuietEventsPrefix(fdmap: map<Fd, Socket>, process: Process, events: seq<Event>, k: nat)
    requires k <= |events| && QuietEvents(fdmap, events[..k])
    ensures RunEvents(fdmap, process, events).stop == RunEvents(fdmap, process, events[k..]).stop
    ensures RunEvents(fdmap, process, events).log
         == EffectsOf(fdmap, process, events[..k]).log + RunEvents(fdmap, process, events[k..]).log
    ensures RunEvents(fdmap, process, events).delivered
         == EffectsOf(fdmap, process, events[..k]).delivered + RunEvents(fdmap, process, events[k..]).delivered
    decreases k
  {
    if k == 0 {
      assert events[..0] == [] && events[0..] == events;
    } else {
      var before := events[..k];
      var tail := events[1..][..k - 1];
      assert before[0] == events[0];
      assert before[1..] == tail;
      assert events[1..][k - 1..] == events[k..];
      assert QuietEvents(fdmap, tail) by {
        forall i | 0 <= i < |tail|
          ensures !tail[i].shutdown && tail[i].fd in fdmap
        {
          assert tail[i] == before[i + 1];
        }
      }
      QuietEventsPrefix(fdmap, process, events[1..], k - 1);
      var here, quiet, rest := EventAt(fdmap, process, events[0]), EffectsOf(fdmap, process, tail),
                               RunEvents(fdmap, process, events[k..]);
      ConcatAssoc(here.log, quiet.log, rest.log);
      ConcatAssoc(here.delivered, quiet.delivered, rest.delivered);
    }
  }

  /**
    Quiet turns run through without stopping: `Run` on `before + after`
    ends the way it ends on `after`, after exactly the effects of every
    event the polls of `before` reported.
   */
  lemma {:induction false} QuietPrefixRuns(fdmap: map<Fd, Socket>, process: Process, before: seq<Round>, after: seq<Round>)
    requires QuietRounds(fdmap, before)
    ensures RunRounds(fdmap, process, before + after).stop == RunRounds(fdmap, process, after).stop
    ensures RunRounds(fdmap, process, before + after).log
         == EffectsOf(fdmap, process, AllEvents(before)).log + RunRounds(fdmap, process, after).log
    ensures RunRounds(fdmap, process, before + after).delivered
         == EffectsOf(fdmap, process, AllEvents(before)).delivered + RunRounds(fdmap, process, after).delivered
    decreases |before|
  {
    if |before| == 0 {
      assert before + after == after;
    } else {
      var all := before + after;
      assert all[0] == before[0];
      assert all[1..] == before[1..] + after;
      QuietRoundsTail(fdmap, before);
      QuietPrefixRuns(fdmap, process, before[1..], after);
      QuietRoundStep(fdmap, process, all);
      assert AllEvents(before) == PollEvents(before[0]) + AllEvents(before[1..]);
      EffectsOfAppend(fdmap, process, PollEvents(before[0]), AllEvents(before[1..]));
      var first, later := EffectsOf(fdmap, process, PollEvents(before[0])), EffectsOf(fdmap, process, AllEvents(before[1..]));
      var rest := RunRounds(fdmap, process, after);
      ConcatAssoc(first.log, later.log, rest.log);
      ConcatAssoc(first.delivered, later.delivered, rest.delivered);
    }
  }

  lemma ConcatAssoc<T>(a: seq<T>, b: seq<T>, c: seq<T>)
    ensures a + (b + c) == (a + b) + c
  {
  }

  /** One quiet turn of the `while` loop does exactly the effects of the events its poll reported, and goes on. */
  lemma QuietRoundStep(fdmap: map<Fd, Socket>, process: Process, rounds: seq<Round>)
    requires |rounds| > 0 && !rounds[0].shutdown
    requires rounds[0].poll.PollFailed? ==> rounds[0].poll.errno == EINTR
    requires rounds[0].poll.Ready? ==> QuietEvents(fdmap, rounds[0].poll.events)
    ensures RunRounds(fdmap, process, rounds).stop == RunRounds(fdmap, process, rounds[1..]).stop
    ensures RunRounds(fdmap, process, rounds).log
         == EffectsOf(fdmap, process, PollEvents(rounds[0])).log + RunRounds(fdmap, process, rounds[1..]).log
    ensures RunRounds(fdmap, process, rounds).delivered
         == EffectsOf(fdmap, process, PollEvents(rounds[0])).delivered + RunRounds(fdmap, process, rounds[1..]).delivered
  {
    if rounds[0].poll.Ready? {
      QuietEventsProcessAll(fdmap, process, rounds[0].poll.events);
    } else {
      assert PollEvents(rounds[0]) == [];
    }
  }

  /**
    A shutdown flag seen at the loop test of the `k`-th turn, after `k`
    quiet turns, ends `Run` there without polling again, after exactly
    the effects of every event the earlier polls reported.
   */
  lemma ShutdownAtRoundStops(fdmap: map<Fd, Socket>, process: Process, rounds: seq<Round>, k: nat)
    requires k < |rounds| && rounds[k].shutdown && QuietRounds(fdmap, rounds[..k])
    ensures RunRounds(fdmap, process, rounds).stop == ShutDown
    ensures RunRounds(fdmap, process, rounds).log == EffectsOf(fdmap, process, AllEvents(rounds[..k])).log
    ensures RunRounds(fdmap, process, rounds).delivered == EffectsOf(fdmap, process, AllEvents(rounds[..k])).delivered
  {
    assert rounds == rounds[..k] + rounds[k..];
    QuietPrefixRuns(fdmap, process, rounds[..k], rounds[k..]);
    assert rounds[k..][0] == rounds[k];
  }

  /**
    A shutdown flag seen before event `j` of the `k`-th poll, after `k`
    quiet turns and `j` quiet events of that poll, ends `Run` there: that
    event and everything after it are left alone, and what was done is
    exactly the effect of every earlier event, in order.
   */
  lemma ShutdownInRoundStops(fdmap: map<Fd, Socket>, process: Process, rounds: seq<Round>, k: nat, j: nat)
    requires k < |rounds| && !rounds[k].shutdown && rounds[k].poll.Ready?
    requires j < |rounds[k].poll.events| && rounds[k].poll.events[j].shutdown
    requires QuietRounds(fdmap, rounds[..k]) && QuietEvents(fdmap, rounds[k].poll.events[..j])
    ensures RunRounds(fdmap, process, rounds).stop == ShutDown
    ensures RunRounds(fdmap, process, rounds).log
         == EffectsOf(fdmap, process, AllEvents(rounds[..k]) + rounds[k].poll.events[..j]).log
    ensures RunRounds(fdmap, process, rounds).delivered
         == EffectsOf(fdmap, process, AllEvents(rounds[..k]) + rounds[k].poll.events[..j]).delivered
  {
    var events := rounds[k].poll.events;
    assert rounds == rounds[..k] + rounds[k..];
    QuietPrefixRuns(fdmap, process, rounds[..k], rounds[k..]);
    assert rounds[k..][0] == rounds[k];
    ShutdownBeforeEventStops(fdmap, process, events, j);
    EffectsOfAppend(fdmap, process, AllEvents(rounds[..k]), events[..j]);
  }

  /**
    A descriptor missing from the map at event `j` of the `k`-th poll,
    after `k` quiet turns and `j` quiet events of that poll, ends `Run`
    with the lookup error for that descriptor, after exactly the effect
    of every earlier event.
   */
  lemma UnknownFdInRoundStops(fdmap: map<Fd, Socket>, process: Process, rounds: seq<Round>, k: nat, j: nat)
    requires k < |rounds| && !rounds[k].shutdown && rounds[k].poll.Ready?
    requires j < |rounds[k].poll.events| && !rounds[k].poll.events[j].shutdown
    requires rounds[k].poll.events[j].fd !in fdmap
    requires QuietRounds(fdmap, rounds[..k]) && QuietEvents(fdmap, rounds[k].poll.events[..j])
    ensures RunRounds(fdmap, process, rounds).stop == UnknownDescriptor(rounds[k].poll.events[j].fd)
    ensures RunRounds(fdmap, process, rounds).log
         == EffectsOf(fdmap, process, AllEvents(rounds[..k]) + rounds[k].poll.events[..j]).log
    ensures RunRounds(fdmap, process, rounds).delivered
         == EffectsOf(fdmap, process, AllEvents(rounds[..k]) + rounds[k].poll.events[..j]).delivered
  {
    var events := rounds[k].poll.events;
    assert rounds == rounds[..k] + rounds[k..];
    QuietPrefixRuns(fdmap, process, rounds[..k], rounds[k..]);
    assert rounds[k..][0] == rounds[k];
    UnknownFdAtEventStops(fdmap, process, events, j);
    EffectsOfAppend(fdmap, process, AllEvents(rounds[..k]), events[..j]);
  }

  /** The shutdown flag seen at the loop test ends `Run` before it polls. */
  lemma ShutdownAtLoopTestStops(fdmap: map<Fd, Socket>, process: Process, rounds: seq<Round>)
    requires |rounds| > 0 && rounds[0].shutdown
    ensures RunRounds(fdmap, process, rounds) == RunResult(ShutDown, [], [])
  {
  }

  /** An interrupted poll is retried: the turn leaves no trace. Any other poll error ends `Run`. */
  lemma PollErrors(fdmap: map<Fd, Socket>, process: Process, rounds: seq<Round>)
    requires |rounds| > 0 && !rounds[0].shutdown && rounds[0].poll.PollFailed?
    ensures rounds[0].poll.errno == EINTR ==> RunRounds(fdmap, process, rounds) == RunRounds(fdmap, process, rounds[1..])
    ensures rounds[0].poll.errno != EINTR
            ==> RunRounds(fdmap, process, rounds) == RunResult(PollError(rounds[0].poll.errno), [], [])
  {
  }

  /**
    An event other than exactly `POLLIN` is only logged: the socket is not
    read and the request handler is not called.
   */
  lemma OtherEventsOnlyLogged(fdmap: map<Fd, Socket>, process: Process, events: seq<Event>)
    requires |events| > 0 && !events[0].shutdown && events[0].fd in fdmap && events[0].mask != POLLIN
    ensures RunEvents(fdmap, process, events).log
         == [UnexpectedEvent] + RunEvents(fdmap, process, events[1..]).log
    ensures RunEvents(fdmap, process, events).delivered == RunEvents(fdmap, process, events[1..]).delivered
    ensures RunEvents(fdmap, process, events).stop == RunEvents(fdmap, process, events[1..]).stop
  {
  }

  /**
    A packet whose processing raises is logged and the loop goes on with
    the next event as if nothing had happened.
   */
  lemma FailedPacketContinues(fdmap: map<Fd, Socket>, process: Process, events: seq<Event>)
    requires |events| > 0 && !events[0].shutdown && events[0].fd in fdmap && events[0].mask == POLLIN
    requires process(fdmap[events[0].fd], events[0].recv).outcome.Fail?
    ensures RunEvents(fdmap, process, events).stop == RunEvents(fdmap, process, events[1..]).stop
    ensures RunEvents(fdmap, process, events).log
         == [LogOf(process(fdmap[events[0].fd], events[0].recv).outcome.error)] + RunEvents(fdmap, process, events[1..]).log
  {
  }
}

=== FILE: sockets.dfy ===
/**
  Socket bookkeeping of the server: construction binds one authentication
  and one accounting socket per listen address (`__init__`,
  `BindToAddress`), `_PrepareSockets` registers every socket with the
  poller and records which descriptors belong to the authentication
  port, and the main loop classifies a ready socket by that record.

  Descriptor numbers are handed out by the operating system; the model
  hands them out from a counter, so every new socket gets a number no
  other socket of the server has.
 */
module Sockets {
  import opened Radius
  import opened Validate

  /** Event bits of the poller (Linux values). */
  const POLLIN: bv16 := 1
  const POLLPRI: bv16 := 2
  const POLLERR: bv16 := 8

  /** The events every server socket is registered for. */
  const WatchMask: bv16 := POLLIN | POLLPRI | POLLERR

  /**
    The part of a server fixed before its main loop starts: its ports,
    its trusted hosts, the sockets bound so far (kept in two parallel
    lists) and the next descriptor number the system will hand out.
   */
  datatype Server = Server(
    authport: nat,
    acctport: nat,
    hosts: Hosts,
    authfds: seq<Socket>,
    acctfds: seq<Socket>,
    nextFd: Fd)

  function AllSockets(s: Server): (r: seq<Socket>)
  {
    s.authfds + s.acctfds
  }

  /** No two sockets in `socks` share a descriptor number. */
  predicate DistinctFilenos(socks: seq<Socket>)
  {
    forall i, j :: 0 <= i < j < |socks| ==> socks[i].fileno != socks[j].fileno
  }

  /** Every socket of the server has its own descriptor, below the next one to be handed out. */
  predicate Valid(s: Server)
  {
    && (forall i :: 0 <= i < |AllSockets(s)| ==> AllSockets(s)[i].fileno < s.nextFd)
    && DistinctFilenos(AllSockets(s))
  }

  /** The descriptor numbers of `socks`, in order (`map(lambda x: x.fileno(), ...)`). */
  function Filenos(socks: seq<Socket>): (r: seq<Fd>)
    ensures |r| == |socks|
    ensures forall i :: 0 <= i < |socks| ==> r[i] == socks[i].fileno
  {
    seq(|socks|, i requires 0 <= i < |socks| => socks[i].fileno)
  }

  /**
    `BindToAddress`: one new socket bound to `(addr, authport)` is appended
    to the authentication list and one bound to `(addr, acctport)` to the
    accounting list; nothing else about the server changes.
   */
  function BindToAddress(s: Server, addr: IP): (r: Server)
    ensures |r.authfds| == |s.authfds| + 1 && r.authfds[..|s.authfds|] == s.authfds
    ensures |r.acctfds| == |s.acctfds| + 1 && r.acctfds[..|s.acctfds|] == s.acctfds
    ensures r.authfds[|s.authfds|].local == Address(addr, s.authport)
    ensures r.acctfds[|s.acctfds|].local == Address(addr, s.acctport)
    ensures r.authport == s.authport && r.acctport == s.acctport && r.hosts == s.hosts
    ensures s.nextFd <= r.nextFd
    ensures Valid(s) ==> Valid(r)
  {
    var authfd := Socket(s.nextFd, Address(addr, s.authport));
    var acctfd := Socket(s.nextFd + 1, Address(addr, s.acctport));
    var r := s.(authfds := s.authfds + [authfd], acctfds := s.acctfds + [acctfd], nextFd := s.nextFd + 2);
    assert Valid(s) ==> Valid(r) by {
      if Valid(s) {
        BindKeepsValid(s, r);
      }
    }
    r
  }

  /**
    Appending to each list one socket numbered at or above `nextFd`, the
    two of them distinct, and moving `nextFd` past both keeps a server valid.
   */
  lemma BindKeepsValid(s: Server, r: Server)
    requires Valid(s)
    requires |r.authfds| == |s.authfds| + 1 && r.authfds[..|s.authfds|] == s.authfds
    requires |r.acctfds| == |s.acctfds| + 1 && r.acctfds[..|s.acctfds|] == s.acctfds
    requires r.authfds[|s.authfds|].fileno == s.nextFd && r.acctfds[|s.acctfds|].fileno == s.nextFd + 1
    requires r.nextFd == s.nextFd + 2
    ensures Valid(r)
  {
    var all, all' := AllSockets(s), AllSockets(r);
    var n, m := |s.authfds|, |all'| - 1;
    forall i | 0 <= i < |all'| && i != n && i != m
      ensures all'[i] == all[if i < n then i else i - 1]
    {
      if i < n {
        assert all'[i] == r.authfds[i] == s.authfds[i];
      } else {
        assert all'[i] == r.acctfds[i - n - 1] == s.acctfds[i - n - 1];
      }
    }
    assert all'[n].fileno == s.nextFd && all'[m].fileno == s.nextFd + 1;
    forall i, j | 0 <= i < j < |all'|
      ensures all'[i].fileno != all'[j].fileno
    {
      if i != n && i != m && j != n && j != m {
        assert all'[i] == all[if i < n then i else i - 1];
        assert all'[j] == all[if j < n then j else j - 1];
      }
    }
  }

  /**
    `Server.__init__`: a server with the given ports and trusted hosts,
    bound to every address of `addresses` in order. `firstFd` is the
    first descriptor number the system hands out.
   */
  method NewServer(addresses: seq<IP>, firstFd: Fd, authport: nat := DefaultAuthPort,
                   acctport: nat := DefaultAcctPort, hosts: Hosts := map[])
    returns (s: Server)
    ensures Valid(s)
    ensures s.authport == authport && s.acctport == acctport && s.hosts == hosts
    ensures |s.authfds| == |addresses| && |s.acctfds| == |addresses|
    ensures forall i :: 0 <= i < |addresses| ==> s.authfds[i].local == Address(addresses[i], authport)
    ensures forall i :: 0 <= i < |addresses| ==> s.acctfds[i].local == Address(addresses[i], acctport)
  {
    s := Server(authport, acctport, hosts, [], [], firstFd);
    var i := 0;
    while i < |addresses|
      invariant 0 <= i <= |addresses|
      invariant Valid(s)
      invariant s.authport == authport && s.acctport == acctport && s.hosts == hosts
      invariant |s.authfds| == i && |s.acctfds| == i
      invariant forall k :: 0 <= k < i ==> s.authfds[k].local == Address(addresses[k], authport)
      invariant forall k :: 0 <= k < i ==> s.acctfds[k].local == Address(addresses[k], acctport)
    {
      var s' := BindToAddress(s, addresses[i]);
      forall k | 0 <= k < i
        ensures s'.authfds[k] == s.authfds[k] && s'.acctfds[k] == s.acctfds[k]
      {
        assert s'.authfds[..i][k] == s'.authfds[k] && s'.acctfds[..i][k] == s'.acctfds[k];
      }
      s := s';
      i := i + 1;
    }
  }

  /** The descriptor map built by registering `socks` one after the other, a later socket overwriting an earlier one with the same descriptor. */
  function FdMap(socks: seq<Socket>): (r: map<Fd, Socket>)
    decreases |socks|
  {
    if |socks| == 0 then map[]
    else FdMap(socks[..|socks| - 1])[socks[|socks| - 1].fileno := socks[|socks| - 1]]
  }

  /** The keys of `FdMap(socks)` are exactly the descriptors of `socks`, each mapped to a socket of `socks` with that descriptor. */
  lemma {:induction false} FdMapEntries(socks: seq<Socket>)
    ensures forall f :: f in FdMap(socks) <==> exists k :: 0 <= k < |socks| && socks[k].fileno == f
    ensures forall f :: f in FdMap(socks) ==> FdMap(socks)[f].fileno == f && FdMap(socks)[f] in socks
    decreases |socks|
  {
    if |socks| > 0 {
      var n := |socks| - 1;
      var init := socks[..n];
      FdMapEntries(init);
      forall f | f in FdMap(socks)
        ensures exists k :: 0 <= k < |socks| && socks[k].fileno == f
        ensures FdMap(socks)[f].fileno == f && FdMap(socks)[f] in socks
      {
        if f != socks[n].fileno {
          assert f in FdMap(init) && FdMap(socks)[f] == FdMap(init)[f];
          var k :| 0 <= k < n && init[k].fileno == f;
          assert socks[k] == init[k];
          assert FdMap(init)[f] in init;
        }
      }
      forall f | exists k :: 0 <= k < |socks| && socks[k].fileno == f
        ensures f in FdMap(socks)
      {
        var k :| 0 <= k < |socks| && socks[k].fileno == f;
        if k < n {
          assert init[k] == socks[k];
        }
      }
    }
  }

  /** A descriptor no socket of `socks` carries is not a key of `FdMap(socks)`. */
  lemma {:induction false} FdMapMissing(socks: seq<Socket>, f: Fd)
    requires forall k :: 0 <= k < |socks| ==> socks[k].fileno != f
    ensures f !in FdMap(socks)
    decreases |socks|
  {
    if |socks| > 0 {
      FdMapMissing(socks[..|socks| - 1], f);
    }
  }

  /** The sockets before the last of a list with distinct descriptors have distinct descriptors too. */
  lemma DistinctInit(socks: seq<Socket>)
    requires DistinctFilenos(socks) && |socks| > 0
    ensures DistinctFilenos(socks[..|socks| - 1])
  {
  }

  /** With distinct descriptors, `FdMap(socks)` has one entry per socket, each under its own descriptor. */
  lemma {:induction false} FdMapOfDistinct(socks: seq<Socket>)
    requires DistinctFilenos(socks)
    ensures forall k :: 0 <= k < |socks| ==> socks[k].fileno in FdMap(socks) && FdMap(socks)[socks[k].fileno] == socks[k]
    ensures |FdMap(socks)| == |socks|
    decreases |socks|
  {
    if |socks| > 0 {
      var n := |socks| - 1;
      var init := socks[..n];
      var last := socks[n];
      DistinctInit(socks);
      FdMapOfDistinct(init);
      forall k | 0 <= k < n
        ensures init[k].fileno != last.fileno
      {
        assert init[k] == socks[k];
      }
      FdMapMissing(init, last.fileno);
      assert FdMap(socks) == FdMap(init)[last.fileno := last];
      forall k | 0 <= k < |socks|
        ensures socks[k].fileno in FdMap(socks) && FdMap(socks)[socks[k].fileno] == socks[k]
      {
        if k < n {
          assert init[k] == socks[k];
        }
      }
    }
  }

  /**
    What `_PrepareSockets` leaves behind: the descriptor-to-socket map,
    the poller registrations, and the descriptor lists of the
    authentication and accounting sockets.
   */
  datatype Prepared = Prepared(
    fdmap: map<Fd, Socket>,
    registered: map<Fd, bv16>,
    realauthfds: seq<Fd>,
    realacctfds: seq<Fd>)

  /**
    `_PrepareSockets`: every authentication and accounting socket is put in
    the descriptor map under its own number and registered for `WatchMask`;
    nothing else is. With distinct descriptors (`Valid`), the map holds
    exactly one entry per socket.
   */
  method PrepareSockets(s: Server) returns (p: Prepared)
    ensures forall f :: f in p.fdmap <==> exists k :: 0 <= k < |AllSockets(s)| && AllSockets(s)[k].fileno == f
    ensures forall f :: f in p.fdmap ==> p.fdmap[f].fileno == f && p.fdmap[f] in AllSockets(s)
    ensures p.registered.Keys == p.fdmap.Keys
    ensures forall f :: f in p.registered ==> p.registered[f] == WatchMask
    ensures Valid(s) ==> forall k :: 0 <= k < |AllSockets(s)| ==> p.fdmap[AllSockets(s)[k].fileno] == AllSockets(s)[k]
    ensures Valid(s) ==> |p.fdmap| == |s.authfds| + |s.acctfds|
    ensures p.realauthfds == Filenos(s.authfds)
    ensures p.realacctfds == Filenos(s.acctfds)
  {
    var all := AllSockets(s);
    var fdmap: map<Fd, Socket> := map[];
    var registered: map<Fd, bv16> := map[];
    var i := 0;
    while i < |all|
      invariant 0 <= i <= |all|
      invariant fdmap == FdMap(all[..i])
      invariant registered.Keys == fdmap.Keys
      invariant forall f :: f in registered ==> registered[f] == WatchMask
    {
      assert all[..i + 1][..i] == all[..i];
      fdmap := fdmap[all[i].fileno := all[i]];
      registered := registered[all[i].fileno := WatchMask];
      i := i + 1;
    }
    assert all[..i] == all;
    FdMapEntries(all);
    if Valid(s) {
      FdMapOfDistinct(all);
    }
    p := Prepared(fdmap, registered, Filenos(s.authfds), Filenos(s.acctfds));
  }

  /**
    The test `_ProcessInput` makes: a descriptor listed among the
    authentication sockets is treated as authentication, every other
    descriptor as accounting.
   */
  function Classify(fileno: Fd, realauthfds: seq<Fd>): (role: Role)
    ensures role == Auth <==> fileno in realauthfds
    ensures role == Acct <==> fileno !in realauthfds
  {
    if fileno in realauthfds then Auth else Acct
  }

  /**
    On a server whose sockets have distinct descriptors, every
    authentication socket is classified as authentication and every
    accounting socket as accounting.
   */
  lemma ServerSocketsClassified(s: Server, i: nat)
    requires Valid(s)
    ensures i < |s.authfds| ==> Classify(s.authfds[i].fileno, Filenos(s.authfds)) == Auth
    ensures i < |s.acctfds| ==> Classify(s.acctfds[i].fileno, Filenos(s.authfds)) == Acct
  {
    var all := AllSockets(s);
    if i < |s.acctfds| {
      var f := s.acctfds[i].fileno;
      assert all[|s.authfds| + i].fileno == f;
      forall k | 0 <= k < |s.authfds|
        ensures Filenos(s.authfds)[k] != f
      {
        assert all[k] == s.authfds[k];
      }
    }
  }
}

=== FILE: validate.dfy ===
/**
  The per-port admission checks of the server (`_HandleAuthPacket`,
  `_HandleAcctPacket`) and of the proxy (`_HandleProxyPacket`).

  Each check is an ordered list of rules of which the first failure wins:
  the sender must be a trusted host, the packet code must be legal on the
  port, and on the accounting port the Request Authenticator must verify.
  Between the first and the second rule the host's secret is copied onto
  the packet, so a packet refused for its code still carries the secret.
 */
module Validate {
  import opened Radius

  type Hosts = map<IP, RemoteHost>

  /**
    The Request Authenticator check of section 3 of RFC 2866
    (`VerifyAcctRequest`). It is computed by the packet layer from the
    packet and its secret; the model leaves it uninterpreted.
   */
  type Verifier = Packet -> bool

  /** The packet after a validator ran, and whether it was admitted. */
  datatype Checked = Checked(pkt: Packet, outcome: Outcome<Rejection>)

  /** The role of the socket a packet arrived on. */
  datatype Role = Auth | Acct | ProxyReply

  /** Copy the sender's shared secret onto the packet, if the sender is known. */
  function Stamp(hosts: Hosts, pkt: Packet): (r: Packet)
    ensures pkt.source.ip in hosts ==> r.secret == hosts[pkt.source.ip].secret
    ensures pkt.source.ip !in hosts ==> r == pkt
    ensures r.(secret := pkt.secret) == pkt
  {
    if pkt.source.ip in hosts then pkt.(secret := hosts[pkt.source.ip].secret) else pkt
  }

  /** `_HandleAuthPacket`: only AccessRequest from a trusted host is admitted. */
  function HandleAuthPacket(hosts: Hosts, pkt: Packet): (r: Checked)
    ensures pkt.source.ip !in hosts ==> r == Checked(pkt, Fail(UnknownHost(pkt.source.ip)))
    ensures pkt.source.ip in hosts ==> r.pkt.secret == hosts[pkt.source.ip].secret
    ensures r.pkt.(secret := pkt.secret) == pkt
    ensures r.outcome == Fail(NonAuthenticationPacket) <==> pkt.source.ip in hosts && pkt.code != AccessRequest
    ensures r.outcome.Pass? <==> pkt.source.ip in hosts && pkt.code == AccessRequest
  {
    var ip := pkt.source.ip;
    if ip !in hosts then Checked(pkt, Fail(UnknownHost(ip)))
    else
      var stamped := pkt.(secret := hosts[ip].secret);
      if stamped.code != AccessRequest then Checked(stamped, Fail(NonAuthenticationPacket))
      else Checked(stamped, Pass)
  }

  /**
    `_HandleAcctPacket`: AccountingRequest or AccountingResponse from a
    trusted host whose authenticator verifies (with the secret already
    copied onto the packet). The authenticator check is applied to both
    codes, AccountingResponse included.
   */
  function HandleAcctPacket(hosts: Hosts, verify: Verifier, pkt: Packet): (r: Checked)
    ensures pkt.source.ip !in hosts ==> r == Checked(pkt, Fail(UnknownHost(pkt.source.ip)))
    ensures pkt.source.ip in hosts ==> r.pkt.secret == hosts[pkt.source.ip].secret
    ensures r.pkt.(secret := pkt.secret) == pkt
    ensures r.outcome == Fail(NonAccountingPacket)
            <==> pkt.source.ip in hosts && pkt.code != AccountingRequest && pkt.code != AccountingResponse
    ensures r.outcome == Fail(InvalidAuthenticator(pkt.source.ip))
            <==> pkt.source.ip in hosts && pkt.code in {AccountingRequest, AccountingResponse} && !verify(r.pkt)
    ensures r.outcome.Pass?
            <==> pkt.source.ip in hosts && pkt.code in {AccountingRequest, AccountingResponse} && verify(r.pkt)
  {
    var ip := pkt.source.ip;
    if ip !in hosts then Checked(pkt, Fail(UnknownHost(ip)))
    else
      var stamped := pkt.(secret := hosts[ip].secret);
      if stamped.code !in [AccountingRequest, AccountingResponse] then Checked(stamped, Fail(NonAccountingPacket))
      else if !verify(stamped) then Checked(stamped, Fail(InvalidAuthenticator(ip)))
      else Checked(stamped, Pass)
  }

  /**
    `Proxy._HandleProxyPacket`: only replies (AccessAccept, AccessReject,
    AccountingResponse) from a trusted host are admitted on the proxy socket.
   */
  function HandleProxyPacket(hosts: Hosts, pkt: Packet): (r: Checked)
    ensures pkt.source.ip !in hosts ==> r == Checked(pkt, Fail(UnknownHost(pkt.source.ip)))
    ensures pkt.source.ip in hosts ==> r.pkt.secret == hosts[pkt.source.ip].secret
    ensures r.pkt.(secret := pkt.secret) == pkt
    ensures r.outcome == Fail(NonResponsePacket)
            <==> pkt.source.ip in hosts && pkt.code !in {AccessAccept, AccessReject, AccountingResponse}
    ensures r.outcome.Pass?
            <==> pkt.source.ip in hosts && pkt.code in {AccessAccept, AccessReject, AccountingResponse}
  {
    var ip := pkt.source.ip;
    if ip !in hosts then Checked(pkt, Fail(UnknownHost(ip)))
    else
      var stamped := pkt.(secret := hosts[ip].secret);
      if stamped.code !in [AccessAccept, AccessReject, AccountingResponse] then Checked(stamped, Fail(NonResponsePacket))
      else Checked(stamped, Pass)
  }

  /** The validator that guards sockets of the given role. */
  function Validator(role: Role, hosts: Hosts, verify: Verifier, pkt: Packet): (r: Checked)
  {
    match role
    case Auth => HandleAuthPacket(hosts, pkt)
    case Acct => HandleAcctPacket(hosts, verify, pkt)
    case ProxyReply => HandleProxyPacket(hosts, pkt)
  }

  // ---------------------------------------------------------------------
  // Reference definition: an ordered rule list, first failure wins.
  // ---------------------------------------------------------------------

  datatype Rule =
    | KnownHost
    | CodeIn(codes: set<Code>, reason: Rejection)
    | ValidAuthenticator

  predicate Holds(rule: Rule, hosts: Hosts, verify: Verifier, pkt: Packet): (r: bool)
  {
    match rule
    case KnownHost => pkt.source.ip in hosts
    case CodeIn(codes, _) => pkt.code in codes
    case ValidAuthenticator => verify(pkt)
  }

  function Reason(rule: Rule, pkt: Packet): (r: Rejection)
  {
    match rule
    case KnownHost => UnknownHost(pkt.source.ip)
    case CodeIn(_, reason) => reason
    case ValidAuthenticator => InvalidAuthenticator(pkt.source.ip)
  }

  /** The rules of each role, in the order the validators apply them. */
  function Rules(role: Role): (r: seq<Rule>)
  {
    match role
    case Auth => [KnownHost, CodeIn({AccessRequest}, NonAuthenticationPacket)]
    case Acct => [KnownHost, CodeIn({AccountingRequest, AccountingResponse}, NonAccountingPacket), ValidAuthenticator]
    case ProxyReply => [KnownHost, CodeIn({AccessAccept, AccessReject, AccountingResponse}, NonResponsePacket)]
  }

  /** Apply `rules` in order; the verdict is the reason of the first rule that fails. */
  function FirstFailure(rules: seq<Rule>, hosts: Hosts, verify: Verifier, pkt: Packet): (r: Outcome<Rejection>)
    ensures r.Pass? <==> forall i :: 0 <= i < |rules| ==> Holds(rules[i], hosts, verify, pkt)
    ensures r.Fail? ==>
      exists i :: 0 <= i < |rules| && !Holds(rules[i], hosts, verify, pkt) && r.error == Reason(rules[i], pkt)
        && forall j :: 0 <= j < i ==> Holds(rules[j], hosts, verify, pkt)
  {
    if |rules| == 0 then Pass
    else if !Holds(rules[0], hosts, verify, pkt) then Fail(Reason(rules[0], pkt))
    else
      var rest := FirstFailure(rules[1..], hosts, verify, pkt);
      assert forall i :: 1 <= i < |rules| ==> rules[i] == rules[1..][i - 1];
      rest
  }

  /**
    Every validator is the ordered rule list of its role, evaluated on the
    packet after the secret has been copied onto it.
   */
  lemma ValidatorFollowsRules(role: Role, hosts: Hosts, verify: Verifier, pkt: Packet)
    ensures Validator(role, hosts, verify, pkt).pkt == Stamp(hosts, pkt)
    ensures Validator(role, hosts, verify, pkt).outcome == FirstFailure(Rules(role), hosts, verify, Stamp(hosts, pkt))
  {
    var stamped := Stamp(hosts, pkt);
    var rules := Rules(role);
    assert Holds(rules[0], hosts, verify, stamped) <==> pkt.source.ip in hosts;
    if pkt.source.ip in hosts {
      assert rules[1..][1..] == rules[2..];
      if role == Acct {
        var tail := rules[2..];
        assert tail == [ValidAuthenticator] && tail[1..] == [];
        assert FirstFailure(tail, hosts, verify, stamped)
          == if verify(stamped) then Pass else Fail(InvalidAuthenticator(pkt.source.ip));
      }
    }
  }

  /** An unknown sender is refused as such on every port, whatever its code and authenticator. */
  lemma UnknownHostRejectedFirst(role: Role, hosts: Hosts, verify: Verifier, pkt: Packet)
    requires pkt.source.ip !in hosts
    ensures Validator(role, hosts, verify, pkt) == Checked(pkt, Fail(UnknownHost(pkt.source.ip)))
  {
  }

  /**
    A packet handed on by any validator carries its sender's secret, and
    so does a packet refused for anything but an unknown sender.
   */
  lemma SecretSetPastHostCheck(role: Role, hosts: Hosts, verify: Verifier, pkt: Packet)
    requires Validator(role, hosts, verify, pkt).outcome != Fail(UnknownHost(pkt.source.ip))
    ensures pkt.source.ip in hosts
    ensures Validator(role, hosts, verify, pkt).pkt.secret == hosts[pkt.source.ip].secret
  {
  }

  /** No packet is admitted on both the authentication and the accounting port, nor on both the authentication and the proxy socket. */
  lemma AuthCodesDisjoint(hosts: Hosts, verify: Verifier, pkt: Packet)
    ensures !(HandleAuthPacket(hosts, pkt).outcome.Pass? && HandleAcctPacket(hosts, verify, pkt).outcome.Pass?)
    ensures !(HandleAuthPacket(hosts, pkt).outcome.Pass? && HandleProxyPacket(hosts, pkt).outcome.Pass?)
  {
  }

  /** An AccessAccept sent to the accounting port from a trusted host is refused for its code. */
  lemma AccessAcceptOnAcctPortRefused(hosts: Hosts, verify: Verifier, pkt: Packet)
    requires pkt.source.ip in hosts && pkt.code == AccessAccept
    ensures HandleAcctPacket(hosts, verify, pkt).outcome == Fail(NonAccountingPacket)
  {
  }

  /**
    An AccountingResponse on the accounting port passes the code rule and
    is then subject to the authenticator check like a request.
   */
  lemma AcctResponseIsVerified(hosts: Hosts, verify: Verifier, pkt: Packet)
    requires pkt.source.ip in hosts && pkt.code == AccountingResponse
    ensures HandleAcctPacket(hosts, verify, pkt).outcome.Pass? <==> verify(Stamp(hosts, pkt))
  {
  }
}
